=== FILE: README.md ===
# Order entry of the Binance futures testnet bot, in Dafny

The bot (`crypto_bot.py`) asks an operator for a symbol, a side, an order
type, a quantity and, for LIMIT orders, a price, and forwards them to the
exchange SDK's `futures_create_order`. This project models the part of it that
has behaviour of its own:

- `BasicBot.place_order`: building the parameter set `{symbol, side, type,
  quantity}` plus `price` and `timeInForce = "GTC"` for LIMIT orders, the local
  rejection of a LIMIT order without a price, and the mapping of every
  exchange outcome and exception to "the response" or `None` (module `Bot`).
- `get_valid_string` and `get_valid_float`: re-prompting until a line is
  accepted, over a finite sequence of input lines (module `Prompts`, with the
  `.upper().strip()` normalisation in module `Text`).
- `main`: the credential check, one iteration of the order loop as a small
  state machine (stop, restart, submit, or out of input), and the loop itself
  (module `Session`).
- Two worked examples from raw answers to the parameter set (module
  `Scenarios`).

Operator input is a `seq<string>` of lines. Python's `float()` is a
parameter `parse: string -> Option<real>` (`None` = `ValueError`), and the
exchange call is a parameter `exchange: Params -> ExchangeOutcome`.

Facts about the code the model establishes:

- The `EXIT` checks after the side and type prompts (lines 135 and 139) can
  never fire: `get_valid_string` only returns a member of its option list, and
  neither list contains `EXIT` (`Session.AfterSymbolNeverStops`).
- An iteration stops exactly when the symbol answer normalises to `EXIT`
  (`Session.StepStopsOnlyAtSymbolPrompt`). `EXIT` typed at the side or type
  prompt is rejected and re-prompted. At the quantity and price prompts any
  line `parse` rejects is consumed and re-prompted; Python's `float("EXIT")`
  raises `ValueError`, so EXIT is one of them. The banner on line
  125 says `EXIT` works "at any prompt"; the code does not do that.
- Every order `main` submits is well formed, so the `ValueError` branch of
  `place_order` (line 56) cannot be reached from `main`
  (`Session.MainNeverRejectsLocally`).

## Model

| member | source | states |
|---|---|---|
| Text.Upper | crypto_bot.py:83 | the upper-cased string has the input's length and no lower-case ASCII letter |
| Text.UpperChangesOnlyLetters | crypto_bot.py:83 | upper-casing changes exactly the lower-case letters, each to its capital, and keeps every other character |
| Text.UpperIdempotent | crypto_bot.py:83 | upper-casing twice is upper-casing once |
| Text.TrimLeft | crypto_bot.py:83 | the result is a suffix of the input, everything dropped is whitespace, and it does not start with whitespace |
| Text.TrimRight | crypto_bot.py:83 | the result is a prefix of the input, everything dropped is whitespace, and it does not end with whitespace |
| Text.Strip | crypto_bot.py:83 | the stripped string neither starts nor ends with whitespace and is no longer than the input |
| Text.StripIsSlice | crypto_bot.py:83 | the stripped string is a slice of the input with only whitespace on either side of it |
| Text.StripIdempotent | crypto_bot.py:83 | stripping twice is stripping once |
| Text.StripUpperCommute | crypto_bot.py:83 | `.upper().strip()` equals `.strip().upper()` |
| Text.Normalize | crypto_bot.py:129 | a normalised answer has no lower-case letter, no surrounding whitespace, and is no longer than the line |
| Text.NormalizeIdempotent | crypto_bot.py:83 | normalising a normalised answer leaves it unchanged |
| Bot.BuildParams | crypto_bot.py:45-58 | fails exactly for a LIMIT order without a price; otherwise the keys are exactly symbol/side/type/quantity, plus price and timeInForce = GTC for LIMIT with price equal to the given one |
| Bot.BuildParamsRoundTrip | crypto_bot.py:45-58 | reading the parameter set back gives the order's fields, with the price present only for LIMIT orders |
| Bot.BuildParamsInjective | crypto_bot.py:45-58 | two orders give the same parameter set if and only if they agree on every field that is sent |
| Bot.PlaceOrder | crypto_bot.py:42-76 | a result is returned iff no handler caught a failure; nothing is sent iff the local check fails, and then the generic handler catches it; a result is the exchange's accepted response carrying an orderId, and an accepted response with an orderId is returned unchanged; API and request errors go to their own handlers, any other failure (including an accepted response without an orderId, whose `response['orderId']` lookup raises) to the generic one |
| Bot.LimitWithoutPriceNeverSent | crypto_bot.py:54-56 | a LIMIT order without a price is never sent, is caught by the generic handler and yields None, for every exchange behaviour |
| Bot.FailuresReturnNone | crypto_bot.py:68-76 | whenever the local check fails or the exchange does not accept, the caller gets None |
| Prompts.Scan | crypto_bot.py:82-90 | re-prompting returns None iff every line is rejected, and otherwise the first accepted line's value with exactly the lines after it |
| Prompts.GetValidString | crypto_bot.py:80-90 | None iff no line is acceptable; otherwise the first acceptable line's value, which is non-empty, upper-case, stripped, the normalisation of a consumed line, and one of the options when options are given |
| Prompts.GetValidStringNeverOutsideOptions | crypto_bot.py:84-86 | with a non-empty option list, a word outside it is never returned |
| Prompts.GetValidStringAcceptsOption | crypto_bot.py:83-90 | a line normalising to a non-empty option is accepted at once and only that line is consumed |
| Prompts.GetValidStringSkipsRejected | crypto_bot.py:84-89 | a rejected line is consumed and the prompt repeats on the next line |
| Prompts.GetValidFloat | crypto_bot.py:92-102 | None iff every line fails to parse or parses to a value at most 0; otherwise the first positive parsed value, strictly greater than 0, with the lines after it |
| Prompts.GetValidFloatAcceptsPositive | crypto_bot.py:96-100 | a line parsing to a positive number is accepted at once |
| Prompts.ChooseString | crypto_bot.py:83-89 | one answer is accepted iff its upper-cased, stripped form is non-empty and, when options are given, one of them; the accepted value is that form |
| Prompts.ChoosePositive | crypto_bot.py:96-99 | one answer is accepted iff it parses to a number greater than 0, and the accepted value is that number |
| Prompts.GetValidFloatSkipsRejected | crypto_bot.py:95-102 | a line that does not parse or parses to a value at most 0 is consumed and the prompt repeats on the next line |
| Prompts.GetValidFloatSkipsUnparsable | crypto_bot.py:95-102 | any line `parse` rejects is consumed and re-prompted (Python's `float("EXIT")` raises `ValueError`) |
| Session.Step | crypto_bot.py:127-150 | a submitted order is well formed and carries the normalised symbol; every ending other than running out of input consumes lines, and a submission at least four |
| Session.StepOn | crypto_bot.py:129-150 | a symbol equal to EXIT stops and an empty symbol restarts, each on exactly the remaining lines; any order submitted carries the symbol and is well formed, and at least three further lines are consumed |
| Session.AfterSymbol | crypto_bot.py:133-150 | after a valid symbol the iteration never restarts, and any order it submits is well formed with that symbol and carries as its side the value the side prompt returned |
| Session.AfterSide | crypto_bot.py:137-150 | after a valid side the iteration never restarts, and any order it submits keeps that symbol and side and carries as its type the value the type prompt returned |
| Session.AfterType | crypto_bot.py:141-150 | after a valid type the iteration either submits a well-formed order with those fields or runs out of input; the submitted quantity is the value the quantity prompt returned and, for LIMIT, the price is the value the price prompt returned on the lines after it |
| Session.WellFormedOrderBuilds | crypto_bot.py:54-58 | a well-formed order always builds a parameter set |
| Session.AfterSideNeverStops | crypto_bot.py:138-139 | the EXIT check after the type prompt never fires |
| Session.AfterSymbolNeverStops | crypto_bot.py:134-139 | neither EXIT check after the side and type prompts fires |
| Session.StepStopsOnlyAtSymbolPrompt | crypto_bot.py:129-130 | an iteration stops iff the symbol answer normalises to EXIT |
| Session.StepRestartsOnlyOnEmptySymbol | crypto_bot.py:129-131 | an iteration restarts iff the symbol answer normalises to the empty string |
| Session.StepPastSymbol | crypto_bot.py:129-134 | past the EXIT and empty checks, the iteration continues with the side prompt on the next line |
| Session.AfterSymbolSkipsRejectedSide | crypto_bot.py:134 | an answer the side prompt rejects, EXIT included, is consumed and the side prompt repeats |
| Session.StepSkipsRejectedSide | crypto_bot.py:129-134 | within an iteration, a rejected side answer is as if it had not been typed |
| Session.AfterSideSkipsRejectedType | crypto_bot.py:138 | an answer the type prompt rejects, EXIT included, is consumed and the type prompt repeats |
| Session.AfterTypeSkipsRejectedQuantity | crypto_bot.py:142 | a quantity answer that `parse` rejects or that is not positive is consumed and re-prompted, never forwarded |
| Session.AfterTypeSkipsRejectedPrice | crypto_bot.py:145-147 | for a LIMIT order, a rejected price answer after an accepted quantity is as if it had not been typed |
| Session.AfterTypeDirectAnswers | crypto_bot.py:141-150 | a positive quantity line (and a positive price line for LIMIT) submit exactly that order |
| Session.AfterSideDirectAnswer | crypto_bot.py:138 | a valid type answer is accepted at once |
| Session.AfterSymbolDirectAnswer | crypto_bot.py:134 | a valid side answer is accepted at once |
| Session.StepSubmitsDirectAnswers | crypto_bot.py:129-150 | answering each prompt of a well-formed order once submits exactly that order and consumes exactly those lines |
| Session.Run | crypto_bot.py:123-154 | every order the loop passes to place_order is well formed and is sent to the exchange, and there are at most a quarter as many orders as lines; an EXIT symbol ends the loop with no attempt, input running out before a submission ends it with none, and when an iteration submits an order the first attempt is `place_order` called on exactly that order and the remaining attempts are exactly those the loop makes on the lines that iteration left, so every later iteration's order is placed in turn |
| Session.RunStopsOnExit | crypto_bot.py:129-130 | EXIT at the symbol prompt ends the loop with nothing submitted |
| Session.RunRestartsOnEmptySymbol | crypto_bot.py:131 | an empty symbol submits nothing and the loop continues on the next line |
| Session.RunContinues | crypto_bot.py:123-150 | after an iteration that restarts (`continue`) or submits an order, the loop goes on with the lines that iteration did not consume: a restart adds no order, a submission puts exactly its own `place_order` call in front of the orders placed on the remaining lines, whatever the exchange answered, and the loop ends as it would on those lines |
| Session.RunIgnoresExchange | crypto_bot.py:150 | the return value of `place_order` is discarded: the orders the loop places and the way it ends are the same whatever the exchange answers, so an exchange failure never stops the session |
| Session.RunExitNeedsExitLine | crypto_bot.py:123-150 | the loop ends on EXIT only if some input line normalises to EXIT |
| Session.Main | crypto_bot.py:106-150 | credentials are reported missing iff a stripped key or secret is empty; otherwise the client is built with exactly the stripped key and secret, both non-empty, and the loop runs on the remaining lines; every submitted order is well formed |
| Session.MissingCredentialsPlaceNothing | crypto_bot.py:112-117 | with an empty key or secret no client is built and no order is submitted |
| Session.MainNeverRejectsLocally | crypto_bot.py:129-150 | every order main submits passes the local LIMIT-price check and reaches the exchange, whatever the exchange answers |
| Scenarios.NormalizeBtcusdt | crypto_bot.py:129 | "btcusdt" normalises to "BTCUSDT" |
| Scenarios.NormalizeBuy | crypto_bot.py:83 | "buy" normalises to "BUY" |
| Scenarios.NormalizeSell | crypto_bot.py:83 | "sell" normalises to "SELL" |
| Scenarios.NormalizeMarket | crypto_bot.py:83 | "market" normalises to "MARKET" |
| Scenarios.NormalizeLimit | crypto_bot.py:83 | "limit" normalises to "LIMIT" |
| Scenarios.MarketScenario | crypto_bot.py:129-150 | the answers btcusdt / buy / market / 0.01 submit the MARKET order BTCUSDT BUY 0.01 without a price |
| Scenarios.MarketScenarioParams | crypto_bot.py:45-51 | that MARKET order is sent as exactly the four common fields |
| Scenarios.LimitScenario | crypto_bot.py:129-150 | the answers btcusdt / sell / limit / 0.5 / 25000 submit the LIMIT order with price 25000 |
| Scenarios.LimitScenarioParams | crypto_bot.py:45-58 | that LIMIT order is sent with price 25000 and timeInForce GTC |

## Left out

- Logging setup and every log line (crypto_bot.py:8-16, 27, 29, 43, 64-65, 69-75): output sinks with no behaviour to check. Only the `KeyError` that line 64 raises when a response lacks `orderId` is kept, as a failure caught by the generic handler.
- Building the SDK `Client` and the fatal `sys.exit(1)` (crypto_bot.py:19-30): a call into the exchange SDK and process control. In the model the client is always built once both credentials are present.
- The content of the exchange's response: it is reduced to whether it carries an `orderId`. The exchange is a function of the parameter set, so the model does not cover an exchange whose answer depends on earlier calls. This makes no difference to the loop, which discards what `place_order` returns.
- Python's `float()`: it is the parameter `parse`, with reals instead of IEEE doubles. So `"nan"` and `"inf"`, which `float()` accepts and which slip past `value <= 0`, are not modelled.
- `KeyboardInterrupt` (crypto_bot.py:152-154) and end of input: in Python, `input()` at end of input raises `EOFError`, which `main` does not catch. In the model the run simply ends there, as `OutOfInput`, `InputExhausted` or `CredentialsNotRead`.
- Text.Upper: models `str.upper()` on ASCII letters only. Python also maps non-ASCII letters, and some of them change the string's length.
- Text.Strip: drops only the ASCII characters that Python counts as whitespace (9-13, 28-31, 32), not Unicode whitespace such as U+00A0.
- Prompts.GetValidString: the option list is a sequence. An empty sequence stands for both `valid_options=None` and `[]`, which the source treats alike.
- Scenarios.MarketScenario: takes as given that the answers normalise to the expected words. The `Normalize…` lemmas prove this for each answer separately, rather than in one statement about the literal lines.
- Scenarios.LimitScenario: the same, for the LIMIT example.

=== FILE: bot.dfy ===
/**
 * The client wrapper `BasicBot.place_order`: building the request's field
 * set, rejecting a LIMIT order without a price before any network call, and
 * mapping every exchange outcome and every exception to "a response" or
 * "no result".
 */
module Bot {
  import opened Wrappers

  /** The five fields the operator supplies for one order. `side` and
      `orderType` are kept as the strings `place_order` receives them. */
  datatype OrderRequest = OrderRequest(
    symbol: string,
    side: string,
    orderType: string,
    quantity: real,
    price: Option<real>)

  /** A value of the keyword-argument bag handed to the exchange SDK. */
  datatype ParamValue = Text(text: string) | Number(number: real)

  type Params = map<string, ParamValue>

  const COMMON_KEYS: set<string> := {"symbol", "side", "type", "quantity"}
  const LIMIT_KEYS: set<string> := COMMON_KEYS + {"price", "timeInForce"}

  /** "Good till cancelled", the time in force every LIMIT order carries. */
  const GTC: string := "GTC"

  /** The local rejection raised as `ValueError` before any network call. */
  datatype LocalError = MissingLimitPrice

  /** The price that ends up in the request: only LIMIT orders carry one. */
  function EffectivePrice(req: OrderRequest): Option<real> {
    if req.orderType == "LIMIT" then req.price else None
  }

  /** The parameter set of `place_order`. Every order gets the four common
      fields; a LIMIT order additionally gets `price` and `timeInForce`, and
      fails locally when it has no price. A price given with any other type
      is ignored. */
  function BuildParams(req: OrderRequest): (r: Result<Params, LocalError>)
    ensures r.Failure? <==> req.orderType == "LIMIT" && req.price.None?
    ensures r.Success? && req.orderType != "LIMIT" ==> r.value.Keys == COMMON_KEYS
    ensures r.Success? && req.orderType == "LIMIT" ==>
      && r.value.Keys == LIMIT_KEYS
      && r.value["price"] == Number(req.price.value)
      && r.value["timeInForce"] == Text(GTC)
  {
    var common := map[
      "symbol" := Text(req.symbol),
      "side" := Text(req.side),
      "type" := Text(req.orderType),
      "quantity" := Number(req.quantity)];
    if req.orderType == "LIMIT" then
      match req.price
      case None => Failure(MissingLimitPrice)
      case Some(p) => Success(common["price" := Number(p)]["timeInForce" := Text(GTC)])
    else
      Success(common)
  }

  function TextField(p: Params, key: string): Option<string> {
    if key in p && p[key].Text? then Some(p[key].text) else None
  }

  function NumberField(p: Params, key: string): Option<real> {
    if key in p && p[key].Number? then Some(p[key].number) else None
  }

  /** Reads an order back out of a parameter set: the request the exchange
      sees. `None` when a common field is missing or has the wrong kind. */
  function ReadBack(p: Params): Option<OrderRequest> {
    match (TextField(p, "symbol"), TextField(p, "side"), TextField(p, "type"), NumberField(p, "quantity"))
    case (Some(symbol), Some(side), Some(orderType), Some(quantity)) =>
      Some(OrderRequest(symbol, side, orderType, quantity, NumberField(p, "price")))
    case _ => None
  }

  /** The parameter set carries exactly the operator's order: reading it
      back gives the request with the price dropped unless it is a LIMIT. */
  lemma BuildParamsRoundTrip(req: OrderRequest)
    requires BuildParams(req).Success?
    ensures ReadBack(BuildParams(req).value)
      == Some(OrderRequest(req.symbol, req.side, req.orderType, req.quantity, EffectivePrice(req)))
  {
  }

  /** Two requests with the same effective content produce the same
      parameter set, and different effective content never collides. */
  lemma BuildParamsInjective(a: OrderRequest, b: OrderRequest)
    requires BuildParams(a).Success? && BuildParams(b).Success?
    ensures BuildParams(a) == BuildParams(b) <==>
      && a.symbol == b.symbol && a.side == b.side && a.orderType == b.orderType
      && a.quantity == b.quantity && EffectivePrice(a) == EffectivePrice(b)
  {
    if BuildParams(a) == BuildParams(b) {
      BuildParamsRoundTrip(a);
      BuildParamsRoundTrip(b);
    }
  }

  /** What the exchange returned. The response is abstracted to whether it
      carries an `orderId`, the only field the wrapper reads. */
  datatype Response = Response(orderId: Option<int>)

  /** The outcome of `futures_create_order`, which is a call into the
      exchange SDK: a response, or one of the exceptions it can raise. */
  datatype ExchangeOutcome =
    | Accepted(response: Response)
    | ApiError(statusCode: int, message: string)
    | RequestError(message: string)
    | OtherError(message: string)

  /** The `except` clause that caught a failure. */
  datatype Handler = ApiHandler | RequestHandler | GenericHandler

  /** The effect of one `place_order` call: the parameter set sent to the
      exchange (if any call was made), the handler that caught a failure
      (if any), and the value returned to the caller. */
  datatype Placement = Placement(sent: Option<Params>, caught: Option<Handler>, result: Option<Response>)

  /** `BasicBot.place_order`, with the exchange call given as a function of
      the parameter set. */
  function PlaceOrder(req: OrderRequest, exchange: Params -> ExchangeOutcome): (pl: Placement)
    ensures pl.result.Some? <==> pl.caught.None?
    ensures pl.sent.None? <==> BuildParams(req).Failure?
    ensures pl.sent.None? ==> pl.caught == Some(GenericHandler)
    ensures pl.sent.Some? ==> pl.sent == Some(BuildParams(req).value)
    ensures pl.result.Some? ==>
      pl.sent.Some? && exchange(pl.sent.value) == Accepted(pl.result.value) && pl.result.value.orderId.Some?
    ensures pl.sent.Some? && exchange(pl.sent.value).ApiError? ==> pl.caught == Some(ApiHandler)
    ensures pl.sent.Some? && exchange(pl.sent.value).RequestError? ==> pl.caught == Some(RequestHandler)
    ensures pl.sent.Some? && exchange(pl.sent.value).Accepted? && exchange(pl.sent.value).response.orderId.Some? ==>
      pl.result == Some(exchange(pl.sent.value).response)
    ensures pl.sent.Some? && exchange(pl.sent.value).Accepted? && exchange(pl.sent.value).response.orderId.None? ==>
      pl.caught == Some(GenericHandler)
    ensures pl.sent.Some? && exchange(pl.sent.value).OtherError? ==> pl.caught == Some(GenericHandler)
  {
    match BuildParams(req)
    case Failure(_) =>
      // The ValueError falls through to the generic `except Exception`.
      Placement(None, Some(GenericHandler), None)
    case Success(params) =>
      match exchange(params)
      case Accepted(response) =>
        if response.orderId.Some? then Placement(Some(params), None, Some(response))
        // Reading `response['orderId']` for the success log raises KeyError.
        else Placement(Some(params), Some(GenericHandler), None)
      case ApiError(_, _) => Placement(Some(params), Some(ApiHandler), None)
      case RequestError(_) => Placement(Some(params), Some(RequestHandler), None)
      case OtherError(_) => Placement(Some(params), Some(GenericHandler), None)
  }

  /** A LIMIT order without a price never reaches the exchange, whatever the
      exchange would have answered, and the caller gets no result. */
  lemma LimitWithoutPriceNeverSent(req: OrderRequest, exchange: Params -> ExchangeOutcome)
    requires req.orderType == "LIMIT" && req.price.None?
    ensures PlaceOrder(req, exchange) == Placement(None, Some(GenericHandler), None)
  {
  }

  /** No failure escapes `place_order`: whenever the exchange does not
      accept the order, the caller receives `None`. */
  lemma FailuresReturnNone(req: OrderRequest, exchange: Params -> ExchangeOutcome)
    requires BuildParams(req).Failure? || !exchange(BuildParams(req).value).Accepted?
    ensures PlaceOrder(req, exchange).result.None?
  {
  }
}

=== FILE: prompts.dfy ===
/**
 * The re-prompting input helpers `get_valid_string` and `get_valid_float`.
 * The operator's input is a finite sequence of lines; each helper consumes
 * lines until one is accepted and returns the accepted value with the lines
 * left over, or `None` when the input runs out first.
 */
module Prompts {
  import opened Wrappers
  import opened Text

  /** A value read from the input, and the lines not yet consumed. */
  datatype Read<T> = Read(value: T, rest: seq<string>)

  /** `rest` is what remains of `lines` after at least one line was read. */
  predicate ProperSuffix(rest: seq<string>, lines: seq<string>) {
    |rest| < |lines| && rest == lines[|lines| - |rest|..]
  }

  lemma SuffixTransitive(a: seq<string>, b: seq<string>, c: seq<string>)
    requires ProperSuffix(a, b) && ProperSuffix(b, c)
    ensures ProperSuffix(a, c)
  {
    assert c[|c| - |b|..][|b| - |a|..] == c[|c| - |a|..];
  }

  /** `rd` is what re-prompting on `lines` yields: `rest` is a proper
      suffix of `lines`, the line just before it is accepted with
      `rd.value`, and every line before that one was rejected. */
  ghost predicate FirstAccepted<T>(lines: seq<string>, accept: string -> Option<T>, rd: Read<T>) {
    var k := |lines| - |rd.rest| - 1;
    && 0 <= k
    && rd.rest == lines[k + 1..]
    && accept(lines[k]) == Some(rd.value)
    && forall j :: 0 <= j < k ==> accept(lines[j]).None?
  }

  /** The `while True` re-prompt loop shared by both helpers: a line that
      `accept` rejects is consumed and the prompt repeats. */
  function Scan<T>(lines: seq<string>, accept: string -> Option<T>): (r: Option<Read<T>>)
    ensures r.None? <==> forall i :: 0 <= i < |lines| ==> accept(lines[i]).None?
    ensures r.Some? ==> FirstAccepted(lines, accept, r.value)
    decreases |lines|
  {
    if |lines| == 0 then None
    else match accept(lines[0])
      case Some(v) => Some(Read(v, lines[1..]))
      case None =>
        var r := Scan(lines[1..], accept);
        if r.Some? then
          FirstAcceptedPrepend(lines, accept, r.value);
          r
        else
          assert forall i :: 1 <= i < |lines| ==> lines[i] == lines[1..][i - 1];
          r
  }

  /** A rejected line in front of the lines `rd` was read from does not
      change which line is accepted first. */
  lemma FirstAcceptedPrepend<T>(lines: seq<string>, accept: string -> Option<T>, rd: Read<T>)
    requires |lines| > 0 && accept(lines[0]).None?
    requires FirstAccepted(lines[1..], accept, rd)
    ensures FirstAccepted(lines, accept, rd)
  {
    var k := |lines| - |rd.rest| - 1;
    assert lines[1..][k..] == lines[k + 1..];
    assert lines[1..][k - 1] == lines[k];
    forall j | 0 <= j < k
      ensures accept(lines[j]).None?
    {
      if j > 0 {
        assert lines[j] == lines[1..][j - 1];
      }
    }
  }

  /** The acceptance test of `get_valid_string` for one line: the line
      upper-cased and stripped, kept only if it is one of the options
      (when options are given) and not empty. */
  function ChooseString(line: string, options: seq<string>): (r: Option<string>)
    ensures r.Some? ==> r.value == Normalize(line) && r.value != "" && (|options| > 0 ==> r.value in options)
    ensures r.None? ==> Normalize(line) == "" || (|options| > 0 && Normalize(line) !in options)
  {
    var v := Normalize(line);
    if |options| > 0 && v !in options then None
    else if v == "" then None
    else Some(v)
  }

  function StringAcceptor(options: seq<string>): string -> Option<string> {
    line => ChooseString(line, options)
  }

  /** `get_valid_string(prompt, valid_options)`. An empty `options` stands
      for both `None` and `[]`, which Python treats alike. */
  function GetValidString(lines: seq<string>, options: seq<string>): (r: Option<Read<string>>)
    ensures r.None? <==> forall i :: 0 <= i < |lines| ==> ChooseString(lines[i], options).None?
    ensures r.Some? ==> FirstAccepted(lines, StringAcceptor(options), r.value)
    ensures r.Some? ==> ProperSuffix(r.value.rest, lines)
    ensures r.Some? ==> r.value.value != "" && NoLower(r.value.value) && Trimmed(r.value.value)
    ensures r.Some? && |options| > 0 ==> r.value.value in options
    ensures r.Some? ==> exists k :: 0 <= k < |lines| && r.value.value == Normalize(lines[k])
  {
    var r := Scan(lines, StringAcceptor(options));
    assert forall i :: 0 <= i < |lines| ==> StringAcceptor(options)(lines[i]) == ChooseString(lines[i], options);
    if r.Some? then
      var k := |lines| - |r.value.rest| - 1;
      var line := lines[k];
      assert ChooseString(line, options) == Some(r.value.value);
      assert r.value.value == Normalize(line);
      r
    else r
  }

  /** With a non-empty option list that does not contain a value, the
      helper never returns it; in particular it never returns "EXIT" for
      the side and type prompts. */
  lemma GetValidStringNeverOutsideOptions(lines: seq<string>, options: seq<string>, word: string)
    requires |options| > 0 && word !in options
    ensures forall rest :: GetValidString(lines, options) != Some(Read(word, rest))
  {
  }

  /** A line equal to an option after normalisation is accepted straight
      away: input is case- and surrounding-whitespace-insensitive. */
  lemma GetValidStringAcceptsOption(lines: seq<string>, options: seq<string>)
    requires |lines| > 0 && Normalize(lines[0]) in options && Normalize(lines[0]) != ""
    ensures GetValidString(lines, options) == Some(Read(Normalize(lines[0]), lines[1..]))
  {
    assert StringAcceptor(options)(lines[0]) == Some(Normalize(lines[0]));
  }

  /** A rejected line is consumed and the prompt repeats on the next one. */
  lemma GetValidStringSkipsRejected(lines: seq<string>, options: seq<string>)
    requires |lines| > 0 && ChooseString(lines[0], options).None?
    ensures GetValidString(lines, options) == GetValidString(lines[1..], options)
  {
    assert StringAcceptor(options)(lines[0]).None?;
  }

  /** The acceptance test of `get_valid_float` for one line: it must parse
      as a number and that number must be greater than 0. `parse` stands
      for Python's `float()`, `None` meaning it raised `ValueError`. */
  function ChoosePositive(line: string, parse: string -> Option<real>): (r: Option<real>)
    ensures r.Some? <==> parse(line).Some? && parse(line).value > 0.0
    ensures r.Some? ==> r == parse(line)
  {
    match parse(line)
    case None => None
    case Some(v) => if v <= 0.0 then None else Some(v)
  }

  function PositiveAcceptor(parse: string -> Option<real>): string -> Option<real> {
    line => ChoosePositive(line, parse)
  }

  /** `get_valid_float(prompt)`. */
  function GetValidFloat(lines: seq<string>, parse: string -> Option<real>): (r: Option<Read<real>>)
    ensures r.None? <==> forall i :: 0 <= i < |lines| ==> parse(lines[i]).None? || parse(lines[i]).value <= 0.0
    ensures r.Some? ==> FirstAccepted(lines, PositiveAcceptor(parse), r.value)
    ensures r.Some? ==> ProperSuffix(r.value.rest, lines)
    ensures r.Some? ==> r.value.value > 0.0
    ensures r.Some? ==> exists k :: 0 <= k < |lines| && parse(lines[k]) == Some(r.value.value)
  {
    var r := Scan(lines, PositiveAcceptor(parse));
    if r.Some? then
      var k := |lines| - |r.value.rest| - 1;
      assert ChoosePositive(lines[k], parse) == Some(r.value.value);
      r
    else r
  }

  /** A line that parses to a positive number is accepted straight away. */
  lemma GetValidFloatAcceptsPositive(lines: seq<string>, parse: string -> Option<real>, v: real)
    requires |lines| > 0 && parse(lines[0]) == Some(v) && v > 0.0
    ensures GetValidFloat(lines, parse) == Some(Read(v, lines[1..]))
  {
    assert PositiveAcceptor(parse)(lines[0]) == Some(v);
  }

  /** A line that does not parse, or parses to a value at most 0, is
      consumed and the prompt repeats on the next one. */
  lemma {:induction false} GetValidFloatSkipsRejected(lines: seq<string>, parse: string -> Option<real>)
    requires |lines| > 0 && (parse(lines[0]).None? || parse(lines[0]).value <= 0.0)
    ensures GetValidFloat(lines, parse) == GetValidFloat(lines[1..], parse)
  {
    assert PositiveAcceptor(parse)(lines[0]).None?;
    assert Scan(lines, PositiveAcceptor(parse)) == Scan(lines[1..], PositiveAcceptor(parse));
  }

  /** A line `parse` rejects is consumed and re-prompted; Python's
      `float("EXIT")` raises `ValueError`, so the numeric prompts do not
      honour the exit word. */
  lemma {:induction false} GetValidFloatSkipsUnparsable(lines: seq<string>, parse: string -> Option<real>)
    requires |lines| > 0 && parse(lines[0]).None?
    ensures GetValidFloat(lines, parse) == GetValidFloat(lines[1..], parse)
  {
    GetValidFloatSkipsRejected(lines, parse);
  }
}

=== FILE: scenarios.dfy ===
/**
 * Worked examples of a whole iteration, from raw operator answers to the
 * parameter set handed to the exchange.
 */
module Scenarios {
  import opened Wrappers
  import opened Text
  import opened Bot
  import opened Session

  lemma NormalizeAnswer(line: string, expected: string)
    requires |line| == |expected| && Trimmed(expected) && NoLower(expected)
    requires forall i :: 0 <= i < |line| ==> UpperChar(line[i]) == expected[i]
    ensures Normalize(line) == expected
  {
    assert Upper(line) == expected;
    StripIdentity(expected);
  }

  /** The raw answers of the two worked examples normalise to the words the
      prompts expect, so the examples below apply to them. */
  lemma NormalizeBtcusdt()
    ensures Normalize("btcusdt") == "BTCUSDT"
  {
    NormalizeAnswer("btcusdt", "BTCUSDT");
  }

  lemma NormalizeBuy()
    ensures Normalize("buy") == "BUY"
  {
    NormalizeAnswer("buy", "BUY");
  }

  lemma NormalizeSell()
    ensures Normalize("sell") == "SELL"
  {
    NormalizeAnswer("sell", "SELL");
  }

  lemma NormalizeMarket()
    ensures Normalize("market") == "MARKET"
  {
    NormalizeAnswer("market", "MARKET");
  }

  lemma NormalizeLimit()
    ensures Normalize("limit") == "LIMIT"
  {
    NormalizeAnswer("limit", "LIMIT");
  }

  lemma ScenarioOrdersWellFormed()
    ensures WellFormedOrder(OrderRequest("BTCUSDT", "BUY", "MARKET", 0.01, None))
    ensures WellFormedOrder(OrderRequest("BTCUSDT", "SELL", "LIMIT", 0.5, Some(25000.0)))
    ensures "BTCUSDT" != EXIT
  {
    assert "BTCUSDT"[0] != EXIT[0];
  }

  /** Answers "btcusdt", "buy", "market", "0.01" (each normalising as the
      lemmas above show) submit the upper-case MARKET request without a
      price. */
  lemma MarketScenario(lines: seq<string>, parse: string -> Option<real>)
    requires |lines| == 4
    requires Normalize(lines[0]) == "BTCUSDT" && Normalize(lines[1]) == "BUY" && Normalize(lines[2]) == "MARKET"
    requires parse(lines[3]) == Some(0.01)
    ensures Step(lines, parse) == Submit(OrderRequest("BTCUSDT", "BUY", "MARKET", 0.01, None), [])
  {
    ScenarioOrdersWellFormed();
    StepSubmitsDirectAnswers(lines, parse, OrderRequest("BTCUSDT", "BUY", "MARKET", 0.01, None));
  }

  /** The MARKET request is sent with only the four common fields. */
  lemma MarketScenarioParams()
    ensures BuildParams(OrderRequest("BTCUSDT", "BUY", "MARKET", 0.01, None)) == Success(map[
      "symbol" := ParamValue.Text("BTCUSDT"), "side" := ParamValue.Text("BUY"),
      "type" := ParamValue.Text("MARKET"), "quantity" := Number(0.01)])
  {
  }

  /** Answers "btcusdt", "sell", "limit", "0.5", "25000" submit the
      upper-case LIMIT request carrying the price. */
  lemma LimitScenario(lines: seq<string>, parse: string -> Option<real>)
    requires |lines| == 5
    requires Normalize(lines[0]) == "BTCUSDT" && Normalize(lines[1]) == "SELL" && Normalize(lines[2]) == "LIMIT"
    requires parse(lines[3]) == Some(0.5) && parse(lines[4]) == Some(25000.0)
    ensures Step(lines, parse) == Submit(OrderRequest("BTCUSDT", "SELL", "LIMIT", 0.5, Some(25000.0)), [])
  {
    ScenarioOrdersWellFormed();
    StepSubmitsDirectAnswers(lines, parse, OrderRequest("BTCUSDT", "SELL", "LIMIT", 0.5, Some(25000.0)));
  }

  /** The LIMIT request carries the price and the good-till-cancelled time
      in force. */
  lemma LimitScenarioParams()
    ensures BuildParams(OrderRequest("BTCUSDT", "SELL", "LIMIT", 0.5, Some(25000.0))) == Success(map[
      "symbol" := ParamValue.Text("BTCUSDT"), "side" := ParamValue.Text("SELL"),
      "type" := ParamValue.Text("LIMIT"), "quantity" := Number(0.5),
      "price" := Number(25000.0), "timeInForce" := ParamValue.Text("GTC")])
  {
  }
}

=== FILE: session.dfy ===
/**
 * The interactive `main` loop: the credential check, one iteration that
 * collects symbol, side, type, quantity and (for LIMIT) price, and the loop
 * that repeats iterations until the operator types EXIT at the symbol
 * prompt or the input runs out.
 */
module Session {
  import opened Wrappers
  import opened Text
  import opened Prompts
  import opened Bot

  const SIDES: seq<string> := ["BUY", "SELL"]
  const TYPES: seq<string> := ["MARKET", "LIMIT"]
  const EXIT: string := "EXIT"

  lemma ExitIsNoOption()
    ensures EXIT !in SIDES && EXIT !in TYPES
  {
    assert EXIT[0] == 'E';
    assert SIDES[0][0] == 'B' && SIDES[1][0] == 'S';
    assert TYPES[0][0] == 'M' && TYPES[1][0] == 'L';
  }

  /** How one iteration of the loop ends. */
  datatype StepOutcome =
    | Stop(rest: seq<string>)                          // `break` on EXIT
    | Restart(rest: seq<string>)                       // `continue` on an empty symbol
    | Submit(order: OrderRequest, rest: seq<string>)   // `bot.place_order(...)`
    | OutOfInput                                       // the input ended mid-iteration

  /** Every field is as the shape of an order demands: a non-empty,
      upper-case, stripped symbol, a known side and type, a positive
      quantity, and a positive price exactly for LIMIT orders. */
  predicate WellFormedOrder(o: OrderRequest) {
    && o.symbol != "" && NoLower(o.symbol) && Trimmed(o.symbol)
    && o.side in SIDES
    && o.orderType in TYPES
    && o.quantity > 0.0
    && (o.price.Some? <==> o.orderType == "LIMIT")
    && (o.price.Some? ==> o.price.value > 0.0)
  }

  /** One pass of the `while True` body, including the EXIT checks after the
      side and type prompts, which never fire (`AfterSymbolNeverStops`). */
  function Step(lines: seq<string>, parse: string -> Option<real>): (r: StepOutcome)
    ensures r.Submit? ==> WellFormedOrder(r.order)
    ensures !r.OutOfInput? ==> ProperSuffix(r.rest, lines)
    ensures r.Submit? ==> r.order.symbol == Normalize(lines[0])
    ensures r.Submit? ==> |r.rest| + 4 <= |lines|
  {
    if |lines| == 0 then OutOfInput
    else
      var r := StepOn(Normalize(lines[0]), lines[1..], parse);
      if r.OutOfInput? then r
      else
        assert ProperSuffix(lines[1..], lines);
        if r.rest == lines[1..] then r
        else
          SuffixTransitive(r.rest, lines[1..], lines);
          r
  }

  /** The checks on the normalised symbol answer, then the prompts that
      follow it on the remaining lines. */
  function StepOn(symbol: string, tail: seq<string>, parse: string -> Option<real>): (r: StepOutcome)
    requires NoLower(symbol) && Trimmed(symbol)
    ensures symbol == EXIT ==> r == Stop(tail)
    ensures symbol == "" ==> r == Restart(tail)
    ensures r.Submit? ==> WellFormedOrder(r.order) && r.order.symbol == symbol
    ensures !r.OutOfInput? ==> r.rest == tail || ProperSuffix(r.rest, tail)
    ensures r.Submit? ==> |r.rest| + 3 <= |tail|
  {
    if symbol == EXIT then Stop(tail)
    else if symbol == "" then Restart(tail)
    else AfterSymbol(symbol, tail, parse)
  }

  /** The side, type, quantity and price prompts that follow an accepted
      symbol. */
  function AfterSymbol(symbol: string, lines: seq<string>, parse: string -> Option<real>): (r: StepOutcome)
    requires symbol != "" && NoLower(symbol) && Trimmed(symbol)
    ensures r.Submit? ==> WellFormedOrder(r.order) && r.order.symbol == symbol
    ensures r.Submit? ==>
      GetValidString(lines, SIDES).Some? && r.order.side == GetValidString(lines, SIDES).value.value
    ensures !r.Restart?
    ensures !r.OutOfInput? ==> ProperSuffix(r.rest, lines)
    ensures r.Submit? ==> |r.rest| + 3 <= |lines|
  {
    match GetValidString(lines, SIDES)
    case None => OutOfInput
    case Some(side) =>
      if side.value == EXIT then Stop(side.rest)
      else
        var r := AfterSide(symbol, side.value, side.rest, parse);
        if r.OutOfInput? then r
        else
          SuffixTransitive(r.rest, side.rest, lines);
          r
  }

  function AfterSide(symbol: string, side: string, lines: seq<string>, parse: string -> Option<real>): (r: StepOutcome)
    requires symbol != "" && NoLower(symbol) && Trimmed(symbol) && side in SIDES
    ensures r.Submit? ==> WellFormedOrder(r.order) && r.order.symbol == symbol && r.order.side == side
    ensures r.Submit? ==>
      GetValidString(lines, TYPES).Some? && r.order.orderType == GetValidString(lines, TYPES).value.value
    ensures !r.Restart?
    ensures !r.OutOfInput? ==> ProperSuffix(r.rest, lines)
    ensures r.Submit? ==> |r.rest| + 2 <= |lines|
  {
    match GetValidString(lines, TYPES)
    case None => OutOfInput
    case Some(orderType) =>
      if orderType.value == EXIT then Stop(orderType.rest)
      else
        var r := AfterType(symbol, side, orderType.value, orderType.rest, parse);
        if r.OutOfInput? then r
        else
          SuffixTransitive(r.rest, orderType.rest, lines);
          r
  }

  function AfterType(symbol: string, side: string, orderType: string, lines: seq<string>, parse: string -> Option<real>): (r: StepOutcome)
    requires symbol != "" && NoLower(symbol) && Trimmed(symbol) && side in SIDES && orderType in TYPES
    ensures r.Submit? ==> WellFormedOrder(r.order) && r.order.symbol == symbol && r.order.side == side && r.order.orderType == orderType
    ensures r.Submit? || r.OutOfInput?
    ensures !r.OutOfInput? ==> ProperSuffix(r.rest, lines)
    ensures r.Submit? && orderType == "LIMIT" ==> |r.rest| + 2 <= |lines|
    ensures r.Submit? ==>
      GetValidFloat(lines, parse).Some? && r.order.quantity == GetValidFloat(lines, parse).value.value
    ensures r.Submit? && orderType == "LIMIT" ==>
      var q := GetValidFloat(lines, parse).value;
      GetValidFloat(q.rest, parse).Some? && r.order.price == Some(GetValidFloat(q.rest, parse).value.value)
  {
    match GetValidFloat(lines, parse)
    case None => OutOfInput
    case Some(quantity) =>
      if orderType == "LIMIT" then
        match GetValidFloat(quantity.rest, parse)
        case None => OutOfInput
        case Some(price) =>
          SuffixTransitive(price.rest, quantity.rest, lines);
          Submit(OrderRequest(symbol, side, orderType, quantity.value, Some(price.value)), price.rest)
      else
        Submit(OrderRequest(symbol, side, orderType, quantity.value, None), quantity.rest)
  }

  /** Every well-formed order builds a parameter set: the LIMIT-without-price
      rejection cannot be triggered by such an order. */
  lemma WellFormedOrderBuilds(o: OrderRequest)
    requires WellFormedOrder(o)
    ensures BuildParams(o).Success?
  {
  }

  lemma {:induction false} AfterSideNeverStops(symbol: string, side: string, lines: seq<string>, parse: string -> Option<real>)
    requires symbol != "" && NoLower(symbol) && Trimmed(symbol) && side in SIDES
    ensures !AfterSide(symbol, side, lines, parse).Stop?
  {
    ExitIsNoOption();
    GetValidStringNeverOutsideOptions(lines, TYPES, EXIT);
  }

  /** Neither EXIT check after the side and type prompts can fire, because
      `get_valid_string` only returns one of its options. */
  lemma {:induction false} AfterSymbolNeverStops(symbol: string, lines: seq<string>, parse: string -> Option<real>)
    requires symbol != "" && NoLower(symbol) && Trimmed(symbol)
    ensures !AfterSymbol(symbol, lines, parse).Stop?
  {
    ExitIsNoOption();
    GetValidStringNeverOutsideOptions(lines, SIDES, EXIT);
    match GetValidString(lines, SIDES)
    case None =>
    case Some(side) =>
      assert side.value in SIDES && side.value != EXIT;
      AfterSideNeverStops(symbol, side.value, side.rest, parse);
  }

  /** An iteration ends the loop exactly when the symbol answer normalises
      to EXIT: typing EXIT at the side, type, quantity or price prompt
      never stops the bot. */
  lemma {:induction false} StepStopsOnlyAtSymbolPrompt(lines: seq<string>, parse: string -> Option<real>)
    ensures Step(lines, parse).Stop? <==> |lines| > 0 && Normalize(lines[0]) == EXIT
  {
    if |lines| > 0 && Normalize(lines[0]) != EXIT && Normalize(lines[0]) != "" {
      AfterSymbolNeverStops(Normalize(lines[0]), lines[1..], parse);
    }
  }

  /** An iteration restarts exactly when the symbol answer is empty after
      normalisation, and nothing is submitted then. */
  lemma StepRestartsOnlyOnEmptySymbol(lines: seq<string>, parse: string -> Option<real>)
    ensures Step(lines, parse).Restart? <==> |lines| > 0 && Normalize(lines[0]) == ""
  {
  }

  lemma AfterTypeDirectAnswers(symbol: string, side: string, orderType: string, lines: seq<string>, parse: string -> Option<real>, quantity: real, price: Option<real>)
    requires symbol != "" && NoLower(symbol) && Trimmed(symbol) && side in SIDES && orderType in TYPES
    requires |lines| >= (if price.Some? then 2 else 1) && parse(lines[0]) == Some(quantity) && quantity > 0.0
    requires price.Some? <==> orderType == "LIMIT"
    requires price.Some? ==> parse(lines[1]) == price && price.value > 0.0
    ensures AfterType(symbol, side, orderType, lines, parse)
      == Submit(OrderRequest(symbol, side, orderType, quantity, price), lines[(if price.Some? then 2 else 1)..])
  {
    GetValidFloatAcceptsPositive(lines, parse, quantity);
    if price.Some? {
      GetValidFloatAcceptsPositive(lines[1..], parse, price.value);
      assert lines[1..][1..] == lines[2..];
    }
  }

  lemma AfterSideDirectAnswer(symbol: string, side: string, lines: seq<string>, parse: string -> Option<real>)
    requires symbol != "" && NoLower(symbol) && Trimmed(symbol) && side in SIDES
    requires |lines| > 0 && Normalize(lines[0]) in TYPES
    ensures AfterSide(symbol, side, lines, parse) == AfterType(symbol, side, Normalize(lines[0]), lines[1..], parse)
  {
    var orderType := Normalize(lines[0]);
    ExitIsNoOption();
    assert orderType != "" && orderType != EXIT;
    GetValidStringAcceptsOption(lines, TYPES);
    assert GetValidString(lines, TYPES) == Some(Read(orderType, lines[1..]));
  }

  lemma AfterSymbolDirectAnswer(symbol: string, lines: seq<string>, parse: string -> Option<real>)
    requires symbol != "" && NoLower(symbol) && Trimmed(symbol)
    requires |lines| > 0 && Normalize(lines[0]) in SIDES
    ensures AfterSymbol(symbol, lines, parse) == AfterSide(symbol, Normalize(lines[0]), lines[1..], parse)
  {
    var side := Normalize(lines[0]);
    ExitIsNoOption();
    assert side != "" && side != EXIT;
    GetValidStringAcceptsOption(lines, SIDES);
    assert GetValidString(lines, SIDES) == Some(Read(side, lines[1..]));
  }

  /** Past the EXIT and empty checks, an iteration is the side, type,
      quantity and price prompts on the following lines. */
  lemma StepPastSymbol(lines: seq<string>, parse: string -> Option<real>)
    requires |lines| > 0 && Normalize(lines[0]) != EXIT && Normalize(lines[0]) != ""
    ensures Step(lines, parse) == AfterSymbol(Normalize(lines[0]), lines[1..], parse)
  {
  }

  /** An answer the side prompt rejects, EXIT included, is consumed and the
      side prompt repeats. */
  lemma AfterSymbolSkipsRejectedSide(symbol: string, lines: seq<string>, parse: string -> Option<real>)
    requires symbol != "" && NoLower(symbol) && Trimmed(symbol)
    requires |lines| > 0 && ChooseString(lines[0], SIDES).None?
    ensures AfterSymbol(symbol, lines, parse) == AfterSymbol(symbol, lines[1..], parse)
  {
    GetValidStringSkipsRejected(lines, SIDES);
    var g := GetValidString(lines, SIDES);
    assert g == GetValidString(lines[1..], SIDES);
    match g
    case None =>
    case Some(side) =>
      if side.value != EXIT {
        assert AfterSymbol(symbol, lines, parse) == AfterSymbol(symbol, lines[1..], parse);
      }
  }

  /** Within an iteration, an answer the side prompt rejects (EXIT
      included) is as if it had never been typed. */
  lemma {:induction false} StepSkipsRejectedSide(lines: seq<string>, parse: string -> Option<real>)
    requires |lines| >= 2 && Normalize(lines[0]) != EXIT && Normalize(lines[0]) != ""
    requires ChooseString(lines[1], SIDES).None?
    ensures Step(lines, parse) == Step([lines[0]] + lines[2..], parse)
  {
    var direct := [lines[0]] + lines[2..];
    assert direct[0] == lines[0] && direct[1..] == lines[1..][1..];
    StepPastSymbol(lines, parse);
    AfterSymbolSkipsRejectedSide(Normalize(lines[0]), lines[1..], parse);
    StepPastSymbol(direct, parse);
  }

  /** An answer the type prompt rejects, EXIT included, is consumed and the
      type prompt repeats. */
  lemma AfterSideSkipsRejectedType(symbol: string, side: string, lines: seq<string>, parse: string -> Option<real>)
    requires symbol != "" && NoLower(symbol) && Trimmed(symbol) && side in SIDES
    requires |lines| > 0 && ChooseString(lines[0], TYPES).None?
    ensures AfterSide(symbol, side, lines, parse) == AfterSide(symbol, side, lines[1..], parse)
  {
    GetValidStringSkipsRejected(lines, TYPES);
    var g := GetValidString(lines, TYPES);
    assert g == GetValidString(lines[1..], TYPES);
    match g
    case None =>
    case Some(orderType) =>
      if orderType.value != EXIT {
        assert AfterSide(symbol, side, lines, parse) == AfterSide(symbol, side, lines[1..], parse);
      }
  }

  /** A quantity answer that `parse` rejects or that is not positive is
      consumed and the quantity prompt repeats: such a value is never
      forwarded. */
  lemma AfterTypeSkipsRejectedQuantity(symbol: string, side: string, orderType: string, lines: seq<string>, parse: string -> Option<real>)
    requires symbol != "" && NoLower(symbol) && Trimmed(symbol) && side in SIDES && orderType in TYPES
    requires |lines| > 0 && (parse(lines[0]).None? || parse(lines[0]).value <= 0.0)
    ensures AfterType(symbol, side, orderType, lines, parse) == AfterType(symbol, side, orderType, lines[1..], parse)
  {
    GetValidFloatSkipsRejected(lines, parse);
  }

  /** Likewise for the price of a LIMIT order: after an accepted quantity,
      a rejected price answer is as if it had not been typed. */
  lemma {:induction false} AfterTypeSkipsRejectedPrice(symbol: string, side: string, lines: seq<string>, parse: string -> Option<real>)
    requires symbol != "" && NoLower(symbol) && Trimmed(symbol) && side in SIDES
    requires |lines| > 1 && parse(lines[0]).Some? && parse(lines[0]).value > 0.0
    requires parse(lines[1]).None? || parse(lines[1]).value <= 0.0
    ensures AfterType(symbol, side, "LIMIT", lines, parse)
      == AfterType(symbol, side, "LIMIT", [lines[0]] + lines[2..], parse)
  {
    var direct := [lines[0]] + lines[2..];
    assert direct[0] == lines[0] && direct[1..] == lines[1..][1..];
    GetValidFloatAcceptsPositive(lines, parse, parse(lines[0]).value);
    GetValidFloatAcceptsPositive(direct, parse, parse(lines[0]).value);
    GetValidFloatSkipsRejected(lines[1..], parse);
  }

  /** Conversely, answering every prompt of a well-formed order once, in
      order, submits exactly that order (unless its symbol is EXIT). */
  lemma {:induction false} StepSubmitsDirectAnswers(lines: seq<string>, parse: string -> Option<real>, o: OrderRequest)
    requires WellFormedOrder(o) && o.symbol != EXIT
    requires |lines| >= (if o.orderType == "LIMIT" then 5 else 4)
    requires Normalize(lines[0]) == o.symbol
    requires Normalize(lines[1]) == o.side && Normalize(lines[2]) == o.orderType
    requires parse(lines[3]) == Some(o.quantity)
    requires o.orderType == "LIMIT" ==> parse(lines[4]) == o.price
    ensures Step(lines, parse) == Submit(o, lines[(if o.orderType == "LIMIT" then 5 else 4)..])
  {
    var l1 := lines[1..];
    var l2 := l1[1..];
    var l3 := l2[1..];
    assert l1[0] == lines[1] && l2[0] == lines[2] && l3 == lines[3..];
    assert Step(lines, parse) == AfterSymbol(o.symbol, l1, parse);
    AfterSymbolDirectAnswer(o.symbol, l1, parse);
    AfterSideDirectAnswer(o.symbol, o.side, l2, parse);
    AfterTypeDirectAnswers(o.symbol, o.side, o.orderType, l3, parse, o.quantity, o.price);
    assert l3[(if o.orderType == "LIMIT" then 2 else 1)..] == lines[(if o.orderType == "LIMIT" then 5 else 4)..];
  }

  /** How the loop as a whole ends. */
  datatype Ending = ExitTyped | InputExhausted

  /** One `place_order` call made by the loop. */
  datatype Attempt = Attempt(order: OrderRequest, placement: Placement)

  /** The calls the loop made, in order, and how it ended. */
  datatype Trace = Trace(attempts: seq<Attempt>, ending: Ending)

  /** Every attempt carries a well-formed order that was sent to the
      exchange. */
  predicate AllSent(attempts: seq<Attempt>) {
    forall i :: 0 <= i < |attempts| ==>
      WellFormedOrder(attempts[i].order) && attempts[i].placement.sent.Some?
  }

  lemma AllSentPrepend(first: Attempt, attempts: seq<Attempt>)
    requires WellFormedOrder(first.order) && first.placement.sent.Some?
    requires AllSent(attempts)
    ensures AllSent([first] + attempts)
  {
    var all := [first] + attempts;
    forall i | 0 <= i < |all|
      ensures WellFormedOrder(all[i].order) && all[i].placement.sent.Some?
    {
      if i > 0 {
        assert all[i] == attempts[i - 1];
      }
    }
  }

  /** The `while True` loop of `main`: iterations repeat until one stops on
      EXIT or the input runs out; the value `place_order` returns is
      discarded, so the exchange's answers never change the control flow. */
  function Run(lines: seq<string>, parse: string -> Option<real>, exchange: Params -> ExchangeOutcome): (t: Trace)
    ensures AllSent(t.attempts)
    ensures 4 * |t.attempts| <= |lines|
    ensures Step(lines, parse).Stop? ==> t == Trace([], ExitTyped)
    ensures Step(lines, parse).OutOfInput? ==> t == Trace([], InputExhausted)
    ensures Step(lines, parse).Submit? ==>
      var order := Step(lines, parse).order;
      |t.attempts| > 0 && t.attempts[0] == Attempt(order, PlaceOrder(order, exchange))
    ensures Step(lines, parse).Submit? ==>
      t.attempts[1..] == Run(Step(lines, parse).rest, parse, exchange).attempts
    decreases |lines|
  {
    match Step(lines, parse)
    case OutOfInput => Trace([], InputExhausted)
    case Stop(_) => Trace([], ExitTyped)
    case Restart(rest) => Run(rest, parse, exchange)
    case Submit(order, rest) =>
      WellFormedOrderBuilds(order);
      var first := Attempt(order, PlaceOrder(order, exchange));
      assert first.placement.sent.Some?;
      var t := Run(rest, parse, exchange);
      AllSentPrepend(first, t.attempts);
      Trace([first] + t.attempts, t.ending)
  }

  /** EXIT at the symbol prompt ends the loop with nothing submitted. */
  lemma RunStopsOnExit(lines: seq<string>, parse: string -> Option<real>, exchange: Params -> ExchangeOutcome)
    requires |lines| > 0 && Normalize(lines[0]) == EXIT
    ensures Run(lines, parse, exchange) == Trace([], ExitTyped)
  {
  }

  /** An empty symbol submits nothing and starts over with the next line. */
  lemma RunRestartsOnEmptySymbol(lines: seq<string>, parse: string -> Option<real>, exchange: Params -> ExchangeOutcome)
    requires |lines| > 0 && Normalize(lines[0]) == ""
    ensures Run(lines, parse, exchange) == Run(lines[1..], parse, exchange)
  {
  }

  /** Past an iteration that restarts or submits, the loop goes on with
      the lines that iteration did not consume: a restart adds nothing, a
      submission adds exactly its own `place_order` call in front of the
      orders placed on those lines, whatever the exchange answered. */
  lemma RunContinues(lines: seq<string>, parse: string -> Option<real>, exchange: Params -> ExchangeOutcome)
    requires Step(lines, parse).Restart? || Step(lines, parse).Submit?
    ensures ProperSuffix(Step(lines, parse).rest, lines)
    ensures Run(lines, parse, exchange).ending == Run(Step(lines, parse).rest, parse, exchange).ending
    ensures Step(lines, parse).Restart? ==>
      Run(lines, parse, exchange) == Run(Step(lines, parse).rest, parse, exchange)
    ensures Step(lines, parse).Submit? ==>
      var order := Step(lines, parse).order;
      Run(lines, parse, exchange).attempts
        == [Attempt(order, PlaceOrder(order, exchange))] + Run(Step(lines, parse).rest, parse, exchange).attempts
  {
  }

  /** The orders of a sequence of attempts, in order. */
  function Orders(attempts: seq<Attempt>): (r: seq<OrderRequest>)
    ensures |r| == |attempts|
    ensures forall i :: 0 <= i < |r| ==> r[i] == attempts[i].order
  {
    seq(|attempts|, i requires 0 <= i < |attempts| => attempts[i].order)
  }

  lemma OrdersPrepend(first: Attempt, attempts: seq<Attempt>)
    ensures Orders([first] + attempts) == [first.order] + Orders(attempts)
  {
  }

  /** The value `place_order` returns is discarded: which orders the loop
      places, and how it ends, do not depend on what the exchange answers. */
  lemma {:induction false} RunIgnoresExchange(lines: seq<string>, parse: string -> Option<real>, e1: Params -> ExchangeOutcome, e2: Params -> ExchangeOutcome)
    ensures Orders(Run(lines, parse, e1).attempts) == Orders(Run(lines, parse, e2).attempts)
    ensures Run(lines, parse, e1).ending == Run(lines, parse, e2).ending
    decreases |lines|
  {
    var st := Step(lines, parse);
    if st.Restart? {
      RunContinues(lines, parse, e1);
      RunContinues(lines, parse, e2);
      RunIgnoresExchange(st.rest, parse, e1, e2);
    } else if st.Submit? {
      RunContinues(lines, parse, e1);
      RunContinues(lines, parse, e2);
      RunIgnoresExchange(st.rest, parse, e1, e2);
      OrdersPrepend(Attempt(st.order, PlaceOrder(st.order, e1)), Run(st.rest, parse, e1).attempts);
      OrdersPrepend(Attempt(st.order, PlaceOrder(st.order, e2)), Run(st.rest, parse, e2).attempts);
    }
  }

  /** The loop only ever ends through the symbol prompt or the end of the
      input, and it ends on EXIT only if some line normalises to EXIT. */
  lemma {:induction false} RunExitNeedsExitLine(lines: seq<string>, parse: string -> Option<real>, exchange: Params -> ExchangeOutcome)
    requires Run(lines, parse, exchange).ending == ExitTyped
    ensures exists i :: 0 <= i < |lines| && Normalize(lines[i]) == EXIT
    decreases |lines|
  {
    var st := Step(lines, parse);
    if st.Stop? {
      StepStopsOnlyAtSymbolPrompt(lines, parse);
      assert Normalize(lines[0]) == EXIT;
    } else if st.Restart? || st.Submit? {
      RunContinues(lines, parse, exchange);
      var rest := st.rest;
      RunExitNeedsExitLine(rest, parse, exchange);
      var i :| 0 <= i < |rest| && Normalize(rest[i]) == EXIT;
      assert rest[i] == lines[|lines| - |rest| + i];
    }
  }

  /** How `main` ends. */
  datatype MainOutcome =
    | CredentialsNotRead                                      // the input ended at a credential prompt
    | CredentialsMissing                                      // "Credentials missing. Exiting."
    | Started(apiKey: string, apiSecret: string, trace: Trace)  // client built, loop run

  /** The orders `main` passed to `place_order`. */
  function Submitted(m: MainOutcome): seq<OrderRequest> {
    if m.Started? then Orders(m.trace.attempts) else []
  }

  /** `main`: two stripped credential lines, then, only if both are
      non-empty, the client is built for the test network and the loop runs
      on the remaining lines. */
  function Main(lines: seq<string>, parse: string -> Option<real>, exchange: Params -> ExchangeOutcome): (m: MainOutcome)
    ensures m.CredentialsMissing? <==> |lines| >= 2 && (Strip(lines[0]) == "" || Strip(lines[1]) == "")
    ensures m.CredentialsNotRead? <==> |lines| < 2
    ensures m.Started? ==> m.apiKey != "" && m.apiSecret != "" && Trimmed(m.apiKey) && Trimmed(m.apiSecret)
    ensures m.Started? ==>
      && m.apiKey == Strip(lines[0]) && m.apiSecret == Strip(lines[1])
      && m.trace == Run(lines[2..], parse, exchange)
    ensures forall i :: 0 <= i < |Submitted(m)| ==> WellFormedOrder(Submitted(m)[i])
  {
    if |lines| < 2 then CredentialsNotRead
    else
      var apiKey := Strip(lines[0]);
      var apiSecret := Strip(lines[1]);
      if apiKey == "" || apiSecret == "" then CredentialsMissing
      else Started(apiKey, apiSecret, Run(lines[2..], parse, exchange))
  }

  /** With an empty key or secret no client is built and no order is placed. */
  lemma MissingCredentialsPlaceNothing(lines: seq<string>, parse: string -> Option<real>, exchange: Params -> ExchangeOutcome)
    requires |lines| >= 2 && (Strip(lines[0]) == "" || Strip(lines[1]) == "")
    ensures !Main(lines, parse, exchange).Started?
    ensures Submitted(Main(lines, parse, exchange)) == []
  {
  }

  /** Every order `main` hands to `place_order` passes the local check, so
      the `ValueError` for a LIMIT order without price is unreachable from
      `main`, whatever the exchange answers. */
  lemma {:induction false} MainNeverRejectsLocally(lines: seq<string>, parse: string -> Option<real>, exchange: Params -> ExchangeOutcome)
    ensures forall o :: o in Submitted(Main(lines, parse, exchange)) ==>
      BuildParams(o).Success? && PlaceOrder(o, exchange).sent.Some?
  {
    var m := Main(lines, parse, exchange);
    forall o | o in Submitted(m)
      ensures BuildParams(o).Success? && PlaceOrder(o, exchange).sent.Some?
    {
      var i :| 0 <= i < |Submitted(m)| && Submitted(m)[i] == o;
      WellFormedOrderBuilds(o);
    }
  }
}

=== FILE: text.dfy ===
/**
 * The two string normalisations the bot applies to operator input:
 * `str.upper()` restricted to ASCII letters and `str.strip()` restricted to
 * the ASCII characters Python counts as whitespace.
 */
module Text {

  /** ASCII characters for which Python's `str.isspace()` holds:
      tab, line feed, vertical tab, form feed, carriage return,
      the four information separators 0x1C-0x1F, and space. */
  predicate IsSpace(c: char) {
    var n := c as int;
    n == 32 || 9 <= n <= 13 || 28 <= n <= 31
  }

  predicate IsLower(c: char) {
    'a' <= c <= 'z'
  }

  function UpperChar(c: char): char {
    if IsLower(c) then (c as int - 32) as char else c
  }

  /** No lower-case ASCII letter occurs in `s`. */
  predicate NoLower(s: string) {
    forall i :: 0 <= i < |s| ==> !IsLower(s[i])
  }

  /** `s` neither starts nor ends with whitespace. */
  predicate Trimmed(s: string) {
    s == [] || (!IsSpace(s[0]) && !IsSpace(s[|s| - 1]))
  }

  predicate AllSpace(s: string) {
    forall i :: 0 <= i < |s| ==> IsSpace(s[i])
  }

  /** ASCII-only model of Python's `str.upper()`: every lower-case letter
      becomes its capital, every other character is kept, and the length
      is unchanged. */
  function Upper(s: string): (r: string)
    ensures |r| == |s|
    ensures NoLower(r)
  {
    seq(|s|, i requires 0 <= i < |s| => UpperChar(s[i]))
  }

  /** Upper-casing changes exactly the lower-case letters, each to the
      letter 32 code points below it, and keeps every other character. */
  lemma UpperChangesOnlyLetters(s: string)
    ensures forall i :: 0 <= i < |s| && !IsLower(s[i]) ==> Upper(s)[i] == s[i]
    ensures forall i :: 0 <= i < |s| && IsLower(s[i]) ==> Upper(s)[i] as int == s[i] as int - 32
  {
  }

  /** Python's `str.lstrip()`: drops the leading whitespace. */
  function TrimLeft(s: string): (r: string)
    ensures |r| <= |s| && r == s[|s| - |r|..]
    ensures AllSpace(s[..|s| - |r|])
    ensures r == [] || !IsSpace(r[0])
    decreases |s|
  {
    if |s| > 0 && IsSpace(s[0]) then
      var r := TrimLeft(s[1..]);
      assert s[..|s| - |r|] == [s[0]] + s[1..][..|s| - 1 - |r|];
      r
    else s
  }

  /** Python's `str.rstrip()`: drops the trailing whitespace. */
  function TrimRight(s: string): (r: string)
    ensures |r| <= |s| && r == s[..|r|]
    ensures AllSpace(s[|r|..])
    ensures r == [] || !IsSpace(r[|r| - 1])
    decreases |s|
  {
    if |s| > 0 && IsSpace(s[|s| - 1]) then
      var r := TrimRight(s[..|s| - 1]);
      assert s[|r|..] == s[..|s| - 1][|r|..] + [s[|s| - 1]];
      r
    else s
  }

  /** Python's `str.strip()`: the result is the slice of `s` left after
      removing whitespace on both sides, and it is itself trimmed. */
  function Strip(s: string): (r: string)
    ensures Trimmed(r)
    ensures |r| <= |s|
  {
    var l := TrimLeft(s);
    var r := TrimRight(l);
    assert r != [] ==> r[0] == l[0];
    r
  }

  /** What `Strip` keeps is a slice of its input, and everything it drops
      on either side is whitespace. */
  lemma {:induction false} StripIsSlice(s: string)
    ensures exists i, j :: 0 <= i <= j <= |s| && Strip(s) == s[i..j] && AllSpace(s[..i]) && AllSpace(s[j..])
  {
    var l := TrimLeft(s);
    var r := TrimRight(l);
    var i := |s| - |l|;
    var j := i + |r|;
    assert l == s[i..];
    assert r == s[i..j];
    assert s[j..] == l[|r|..];
  }

  /** The normalisation `line.upper().strip()` applied to every text answer. */
  function Normalize(line: string): (r: string)
    ensures NoLower(r) && Trimmed(r)
    ensures |r| <= |line|
  {
    Strip(Upper(line))
  }

  lemma {:induction false} UpperIdentity(s: string)
    requires NoLower(s)
    ensures Upper(s) == s
  {
    assert forall i :: 0 <= i < |s| ==> Upper(s)[i] == s[i];
  }

  /** Upper-casing twice is upper-casing once. */
  lemma UpperIdempotent(s: string)
    ensures Upper(Upper(s)) == Upper(s)
  {
    UpperIdentity(Upper(s));
  }

  lemma {:induction false} TrimLeftIdentity(s: string)
    requires s == [] || !IsSpace(s[0])
    ensures TrimLeft(s) == s
  {
  }

  lemma {:induction false} TrimRightIdentity(s: string)
    requires s == [] || !IsSpace(s[|s| - 1])
    ensures TrimRight(s) == s
  {
  }

  /** Stripping leaves an already trimmed string unchanged. */
  lemma StripIdentity(s: string)
    requires Trimmed(s)
    ensures Strip(s) == s
  {
    TrimLeftIdentity(s);
    TrimRightIdentity(s);
  }

  /** Stripping twice is stripping once. */
  lemma StripIdempotent(s: string)
    ensures Strip(Strip(s)) == Strip(s)
  {
    StripIdentity(Strip(s));
  }

  /** Upper-casing never creates or removes whitespace. */
  lemma UpperKeepsSpace(c: char)
    ensures IsSpace(UpperChar(c)) == IsSpace(c)
  {
  }

  lemma {:induction false} TrimLeftUpper(s: string)
    ensures TrimLeft(Upper(s)) == Upper(TrimLeft(s))
    decreases |s|
  {
    if |s| > 0 {
      UpperKeepsSpace(s[0]);
      if IsSpace(s[0]) {
        assert Upper(s)[1..] == Upper(s[1..]);
        TrimLeftUpper(s[1..]);
      }
    }
  }

  lemma {:induction false} TrimRightUpper(s: string)
    ensures TrimRight(Upper(s)) == Upper(TrimRight(s))
    decreases |s|
  {
    if |s| > 0 {
      UpperKeepsSpace(s[|s| - 1]);
      if IsSpace(s[|s| - 1]) {
        assert Upper(s)[..|s| - 1] == Upper(s[..|s| - 1]);
        TrimRightUpper(s[..|s| - 1]);
      }
    }
  }

  /** `.upper().strip()` and `.strip().upper()` agree, so the order in which
      the bot applies the two normalisations does not matter. */
  lemma {:induction false} StripUpperCommute(s: string)
    ensures Strip(Upper(s)) == Upper(Strip(s))
  {
    TrimLeftUpper(s);
    TrimRightUpper(TrimLeft(s));
  }

  /** A normalised answer normalises to itself: re-reading the bot's own
      output would not change it. */
  lemma {:induction false} NormalizeIdempotent(line: string)
    ensures Normalize(Normalize(line)) == Normalize(line)
  {
    var n := Normalize(line);
    UpperIdentity(n);
    StripIdentity(n);
  }
}

=== FILE: wrappers.dfy ===
/** Failure-carrying result types shared by the other modules. */
module Wrappers {

  /** A value that may be absent; `None` plays the role of Python's `None`. */
  datatype Option<+T> = None | Some(value: T)

  /** Either a computed value or the error that stopped the computation. */
  datatype Result<+T, +E> = Success(value: T) | Failure(error: E)
}
